=== FILE: README.md ===
# DirtyPipeline transition event, modelled in Dafny

`DirtyPipeline::Event` records one attempt to run a named transition inside a
pipeline transaction. An event is a string-keyed data hash (`uuid`,
`transaction_uuid`, `transition`, `args`, `created_at`, `cache`,
`attempts_count`, `status`, and later `updated_at`, `destination`, `changes`)
plus an optional error record. It is built by `create` or by the constructor
from a partial hash, in which case defaults fill only the keys that are missing.
The status predicate/mutator pairs `new?`/`new!`, `start?`/`start!`,
`retry?`/`retry!` and `failure?`/`failure!` change the status. `link_exception`,
`attempt_retry` and `complete` record failures, retries and outcomes.
`dump`/`load` move the event to and from its serialized form.

The model is functional. `Event` is an immutable datatype and every mutator is
a pure function that returns the updated event. The values held in the data
hash are a dynamic `Value` type (nil, booleans, integers, strings, lists,
hashes, and a clock reading that stands for a Ruby `Time`).

- `wrappers.dfy`: `Option` and `Result`.
- `values.dfy`: `Value`, Ruby truthiness and `||`, hash lookup, `to_h`, and the frame predicate `AgreeExcept`.
- `event.dfy` (module `PipelineEvent`): the status enumeration, construction and the defaults merge, `create`, the readers, the predicate/mutator pairs, `link_exception`, `attempts_count`, `attempt_retry`, `complete`, `dump` and `load`.
- `event_properties.dfy` (module `EventProperties`): the round trip, idempotence and last-write-wins lemmas, and lemmas about arbitrary sequences of mutator calls.

The clock (`Time.now`, `Time.current`) is the parameter `now`. The id
generator (`Nanoid.generate`) is the parameter `freshId`. The JSON codec is
taken to be exact: the serialized form is the value tree
`{"data" => data, "error" => error}` itself, with the string keys JSON yields.

Notes on the code:

- `retry!` exists and stores `"retry"`, like the other three generated mutators.
- `complete` keeps the error record, and `failure!`/`link_exception` keep `destination`/`changes`. So neither "destination/changes only on success" nor "an error only after a failure" is an invariant of the class. `RunKeepsLastError` states what does hold.
- `create` takes the transaction id as a required keyword argument, so it is always supplied. Any value, `nil` included, is accepted, and construction then succeeds.
- `load` returns nil for a nil or false argument (`return unless json`). A document that is `empty?` (`{}`, `[]`, `""`) leaves `data` nil, which `to_h` reads as an empty hash, so loading fails on `transaction_uuid`. A `null` document, or any other value without `empty?`/`to_h`, is malformed (`NotAHash`).
- A list of string-keyed pairs goes through `Array#to_h`, both as the options and as `data`; a later pair overwrites an earlier one with the same key.

## Model

| member | source | states |
|---|---|---|
| Values.PairsToHash | lib/dirty_pipeline/event.rb:38 | `Array#to_h` succeeds iff every element is a pair with a string key, and the hash has at most as many keys as there are pairs |
| Values.PairsToHashKeys | lib/dirty_pipeline/event.rb:38 | the hash built from a list of pairs has exactly the pairs' keys |
| Values.PairsToHashLastWins | lib/dirty_pipeline/event.rb:38 | each key is bound to the value of its last pair: later pairs overwrite earlier ones |
| Values.ToHash | lib/dirty_pipeline/event.rb:45 | `to_h` gives a hash itself, an empty hash for nil, the pair hash for a list (failing when an element is not a string-keyed pair), and raises for any other value |
| PipelineEvent.ParseStatus | lib/dirty_pipeline/event.rb:5-9 | a status string names the status whose token it is; a string that is not one of the five tokens names none |
| PipelineEvent.Resolve | lib/dirty_pipeline/event.rb:36-45 | empty options leave the keyword arguments as given (an `error:` of nil or `false` included, which `@error = error` keeps) and nil `transition`/`args`; non-empty options go through `to_h` (raising for values without it) and supply `transition`/`args`, and supply `data` and `error` unless the keyword argument is truthy; a truthy keyword argument always wins; the chosen `data` goes through `to_h` (a hash as is, nil as empty, a list of string-keyed pairs as its pair hash), and construction raises exactly when that `to_h` fails |
| PipelineEvent.Defaults | lib/dirty_pipeline/event.rb:49-57 | the defaults hash has exactly the eight default keys and carries the fetched identity; `MergeOverCompleteIsIdentity` shows merging it under a complete hash changes nothing |
| PipelineEvent.Construct | lib/dirty_pipeline/event.rb:47-59 | fails with the missing key iff `transaction_uuid` (checked first) or `uuid` is absent; on success `id`/`tx_id` are those values, every supplied key keeps its value, the keys are the supplied ones plus the defaults, and only missing keys get the defaults (`status` new, `attempts_count` 1, empty `cache`, `created_at` now, `transition`/`args` from the options); the result is well formed |
| PipelineEvent.Create | lib/dirty_pipeline/event.rb:11-20 | equals the constructor applied to the creation data and never fails; fresh id, given transaction id, transition and args; status new, one attempt, empty cache, `created_at` now, no error, no `destination`/`changes`/`updated_at`; exactly the default keys |
| PipelineEvent.Read | lib/dirty_pipeline/event.rb:66-68 | each of the readers `args`, `transition`, `cache`, `destination`, `changes` gives the value stored under its own key, or nil when the key is missing (so `destination`/`changes` read nil before `complete`) |
| PipelineEvent.IsNew | lib/dirty_pipeline/event.rb:71-73 | `new?` holds iff the stored status is the string `"new"` |
| PipelineEvent.IsStarted | lib/dirty_pipeline/event.rb:71-73 | `start?` holds iff the stored status is the string `"started"` |
| PipelineEvent.IsRetry | lib/dirty_pipeline/event.rb:71-73 | `retry?` holds iff the stored status is the string `"retry"` |
| PipelineEvent.IsFailed | lib/dirty_pipeline/event.rb:71-73 | `failure?` holds iff the stored status is the string `"failed"` |
| PipelineEvent.WithStatus | lib/dirty_pipeline/event.rb:70-78 | writing a status token makes the predicate for it true and changes no other key, no identity and not the error |
| PipelineEvent.MarkNew | lib/dirty_pipeline/event.rb:70-78 | `new!` stores `"new"`; afterwards `new?` holds and `start?`, `retry?`, `failure?` do not; nothing else changes |
| PipelineEvent.MarkStarted | lib/dirty_pipeline/event.rb:70-78 | `start!` stores `"started"`; afterwards only `start?` holds; nothing else changes |
| PipelineEvent.MarkRetry | lib/dirty_pipeline/event.rb:70-78 | `retry!` stores `"retry"`; afterwards only `retry?` holds; nothing else changes |
| PipelineEvent.MarkFailed | lib/dirty_pipeline/event.rb:70-78 | `failure!` stores `"failed"`; afterwards only `failure?` holds; nothing else changes |
| PipelineEvent.LinkException | lib/dirty_pipeline/event.rb:80-87 | the error becomes exactly `{exception, exception_message, created_at}` from the exception and the clock, whatever was there before; status becomes failed; no other data key and no identity changes |
| PipelineEvent.AttemptsCount | lib/dirty_pipeline/event.rb:89-91 | a missing counter reads as 0 and an integer counter reads as itself |
| PipelineEvent.AttemptRetry | lib/dirty_pipeline/event.rb:93-96 | the counter rises by exactly one and `updated_at` becomes now; status, error, identity and every other key are unchanged |
| PipelineEvent.Complete | lib/dirty_pipeline/event.rb:98-105 | `destination`, `changes`, `updated_at` and status `success` are set, and none of the four predicates hold afterwards; error, counter, identity and every other key are unchanged |
| PipelineEvent.Dump | lib/dirty_pipeline/event.rb:27-33 | the document carries exactly the data hash under `data` and the error under `error`; `LoadDumpRoundTrip` shows that loading it gives back every well-formed event |
| PipelineEvent.Load | lib/dirty_pipeline/event.rb:22-25 | nil loads as nil; for a document whose `data` is a hash, loading fails on the first missing identity key (`transaction_uuid`, then `uuid`) and otherwise gives an event with that identity, the document's error, every key of `data` kept, and the defaults (with the document's `transition`/`args`) only for missing keys; a document without `data` fails on `transaction_uuid`; every loaded event is well formed |
| EventProperties.StatusTokenRoundTrip | lib/dirty_pipeline/event.rb:5-9 | every status token parses back to its own status |
| EventProperties.StatusPredicatesExclusive | lib/dirty_pipeline/event.rb:71-73 | no two different status predicates hold of the same event |
| EventProperties.StatusMutatorsIdempotent | lib/dirty_pipeline/event.rb:75-77 | calling any of `new!`, `start!`, `retry!`, `failure!` twice is the same as calling it once |
| EventProperties.MergeOverCompleteIsIdentity | lib/dirty_pipeline/event.rb:49-58 | merging the defaults under a hash that already has every default key changes nothing |
| EventProperties.LoadDumpRoundTrip | lib/dirty_pipeline/event.rb:22-64 | loading the dump of a well-formed event gives the same identity, data and error back |
| EventProperties.LoadEmptyDocuments | lib/dirty_pipeline/event.rb:37-47 | an empty hash, list or string document fails to load on `transaction_uuid`; a `null` document is malformed |
| EventProperties.LoadDumpNeedsIdentity | lib/dirty_pipeline/event.rb:47-48 | a dump whose data lacks `transaction_uuid`, or has it but lacks `uuid`, fails to load on that key |
| EventProperties.LinkExceptionReplaces | lib/dirty_pipeline/event.rb:80-87 | linking two exceptions in a row is the same as linking only the second: errors do not accumulate |
| EventProperties.CompleteIdempotent | lib/dirty_pipeline/event.rb:98-105 | completing twice with the same outcome and clock is the same as completing once |
| EventProperties.Apply | lib/dirty_pipeline/event.rb:70-105 | every mutator keeps `id`/`tx_id`, leaves every key outside `status`, `updated_at`, `attempts_count`, `destination`, `changes` untouched, keeps well-formedness, and only `attempt_retry` moves the counter, by one |
| EventProperties.RunPreservesIdentity | lib/dirty_pipeline/event.rb:35-105 | after any sequence of mutator calls, `id`, `tx_id`, `uuid`, `transaction_uuid`, `transition`, `args`, `cache` and `created_at` are as before, and well-formedness holds |
| EventProperties.RunCountsAttempts | lib/dirty_pipeline/event.rb:89-96 | after any sequence of mutator calls the counter equals its old value plus the number of `attempt_retry` calls, so it never decreases |
| EventProperties.RunKeepsLastError | lib/dirty_pipeline/event.rb:80-105 | after any sequence of mutator calls the error is the record of the last `link_exception`, or the original error when there was none |
| EventProperties.CompletionScenario | lib/dirty_pipeline/event.rb:11-105 | create `activate` with `user:42`, start and complete it: status success with the given destination and changes, and the dump loads back unchanged |
| EventProperties.FailureScenario | lib/dirty_pipeline/event.rb:80-96 | a started event that links `TimeoutError("slow")` is failed with that class name and message; a retry mark then gives two attempts, stamps `updated_at`, and the status stays failed |

## Left out

- JSON encoding and decoding: the codec is taken to be exact. Real JSON turns `Time` values and symbol keys into strings, and a malformed text fails to parse; neither is modelled.
- The clock and `Nanoid.generate`: they are parameters (`now`, `freshId`). `Time.current` and `Time.now` are the same clock here.
- The values Ruby methods return (`new!` returns the token, `complete` returns the hash, `attempt_retry` returns the new count): each mutator returns the updated event instead.
- Mutation of the data hash from outside through the `data` reader: it is outside the record's own operations.
- PipelineEvent.AttemptsCount: `to_i` on a stored string parses it, on a `Time` gives epoch seconds, and on other values raises; the model reads every non-integer value as 0.
- PipelineEvent.AttemptRetry: it reads the counter through the same simplified `to_i`, so a stored `"5"` becomes `Int(1)` rather than 6, and a hash, list or boolean counter, on which Ruby raises after `updated_at` is already written, is replaced by `Int(1)` without failing.
- Values.PairsToHash: `Array#to_h` also accepts pairs whose key is not a string, building a hash with non-string keys; data hashes here are string-keyed, so such a list is treated as malformed.
- Floats and symbols: the `Value` type has neither. A JSON float or a Ruby symbol (a symbol transition name, say, which becomes a string after a JSON dump) cannot be represented, and `to_i` truncating a float counter is not modelled.
- The missing `tx_id:` keyword of `create`: Ruby rejects that call before the method runs, so `Create` always receives a transaction id.
- Retry policy, persistence and concurrent writers: they belong to the caller, not to this record.

=== FILE: event.dfy ===
/**
 One attempt at a named transition inside a pipeline transaction
 (`DirtyPipeline::Event`). An event is a string-keyed data hash plus an
 optional error record; every mutator is a pure function returning the
 updated event. The clock (`Time.now`, `Time.current`) is the parameter
 `now`, and the id generator (`Nanoid.generate`) is the parameter `freshId`.
 */
module PipelineEvent {
  import opened Wrappers
  import opened Values

  /** The five status tokens, as a closed enumeration. */
  datatype Status = New | Started | Failed | Retry | Success {
    function Token(): string {
      match this
      case New => "new"
      case Started => "started"
      case Failed => "failed"
      case Retry => "retry"
      case Success => "success"
    }
  }

  /** The reverse of `Token`: which status a stored status string names. */
  function ParseStatus(s: string): (r: Option<Status>)
    ensures r.Some? ==> r.value.Token() == s
    ensures r.None? ==> forall st: Status :: st.Token() != s
  {
    if s == "new" then Some(New)
    else if s == "started" then Some(Started)
    else if s == "failed" then Some(Failed)
    else if s == "retry" then Some(Retry)
    else if s == "success" then Some(Status.Success)
    else None
  }

  /** What the core keeps of a raised exception: its class name and message. */
  datatype Exception = Exception(kind: string, message: string)

  /**
   The record: `id` and `txId` are the instance variables read from the data
   hash at construction; `error` is `Nil` when no error is linked.
   */
  datatype Event = Event(id: Value, txId: Value, data: map<string, Value>, error: Value)

  /** Why construction raises: a `fetch` on a missing identity key, or a value without `to_h`/`empty?`. */
  datatype ConstructError = MissingKey(key: string) | NotAHash

  /** The keys the constructor's defaults hash supplies. */
  const DefaultKeys: set<string> :=
    {"uuid", "transaction_uuid", "transition", "args", "created_at", "cache", "attempts_count", "status"}

  /** The constructor's defaults hash, which the supplied data is merged over. */
  function Defaults(id: Value, txId: Value, transition: Value, args: Value, now: int): (d: map<string, Value>)
    ensures d.Keys == DefaultKeys
    ensures d["uuid"] == id && d["transaction_uuid"] == txId
  {
    map[
      "uuid" := id,
      "transaction_uuid" := txId,
      "transition" := transition,
      "args" := args,
      "created_at" := Time(now),
      "cache" := Hash(map[]),
      "attempts_count" := Int(1),
      "status" := Str(New.Token())
    ]
  }

  /**
   An event whose data agrees with its identity fields and holds every
   default key: what construction produces and what the mutators keep.
   */
  ghost predicate WellFormed(e: Event) {
    && DefaultKeys <= e.data.Keys
    && e.data["uuid"] == e.id
    && e.data["transaction_uuid"] == e.txId
  }

  /** The constructor's inputs after the options hash has been unpacked. */
  datatype Inputs = Inputs(dataHash: map<string, Value>, error: Value, transition: Value, args: Value)

  /** `options.empty?` is true (a nil options value has no `empty?` and raises). */
  predicate EmptyOptions(options: Value) {
    options == Hash(map[]) || options == Str("") || options == List([])
  }

  /**
   The first half of `initialize`: non-empty options go through `to_h`, and
   the resulting hash supplies `data` and `error` unless truthy keyword
   arguments were given, and supplies `transition` and `args` (otherwise
   they are nil); then `data.to_h`.
   */
  function Resolve(options: Value, dataArg: Value, errorArg: Value): (r: Result<Inputs, ConstructError>)
    ensures !EmptyOptions(options) && !options.Hash? && !options.List? ==> r == Err(NotAHash)
    ensures !EmptyOptions(options) && ToHash(options).None? ==> r == Err(NotAHash)
    ensures (options.Hash? || EmptyOptions(options)) && dataArg.Hash? ==> r.Ok? && r.value.dataHash == dataArg.fields
    ensures r.Ok? && (Truthy(errorArg) || EmptyOptions(options)) ==> r.value.error == errorArg
    ensures r.Ok? && EmptyOptions(options) ==> r.value.transition == Nil && r.value.args == Nil
    ensures var oh := ToHash(options);
      !EmptyOptions(options) && (options.Hash? || options.List?) && oh.Some? ==>
        && (r.Ok? ==> r.value.transition == Lookup(oh.value, "transition") && r.value.args == Lookup(oh.value, "args"))
        && (r.Ok? && !Truthy(errorArg) ==> r.value.error == Lookup(oh.value, "error"))
    ensures EmptyOptions(options) || ((options.Hash? || options.List?) && ToHash(options).Some?) ==>
      var dv := if EmptyOptions(options) || Truthy(dataArg) then dataArg else Lookup(ToHash(options).value, "data");
      && (r.Ok? <==> ToHash(dv).Some?)
      && (r.Ok? ==> r.value.dataHash == ToHash(dv).value)
  {
    var unpacked: Result<(Value, Value, Value, Value), ConstructError> :=
      if EmptyOptions(options) then
        Ok((dataArg, errorArg, Nil, Nil))
      else if options.Hash? || options.List? then
        match ToHash(options)
        case None => Err(NotAHash)
        case Some(m) =>
          Ok((Or(dataArg, Lookup(m, "data")), Or(errorArg, Lookup(m, "error")), Lookup(m, "transition"), Lookup(m, "args")))
      else
        Err(NotAHash);
    match unpacked
    case Err(err) => Err(err)
    case Ok((data, error, transition, args)) =>
      match ToHash(data)
      case None => Err(NotAHash)
      case Some(dh) => Ok(Inputs(dh, error, transition, args))
  }

  /**
   `Event.new(options, data:, error:)`. Both identity keys are fetched
   (`transaction_uuid` first), then the defaults are merged under the
   supplied data hash, so a present key always keeps its supplied value.
   */
  function Construct(options: Value, dataArg: Value, errorArg: Value, now: int): (r: Result<Event, ConstructError>)
    ensures Resolve(options, dataArg, errorArg).Err? ==> r == Err(Resolve(options, dataArg, errorArg).error)
    ensures var g := Resolve(options, dataArg, errorArg);
      g.Ok? ==>
        && (r == Err(MissingKey("transaction_uuid")) <==> "transaction_uuid" !in g.value.dataHash)
        && (r == Err(MissingKey("uuid")) <==> "transaction_uuid" in g.value.dataHash && "uuid" !in g.value.dataHash)
        && (r.Ok? <==> "transaction_uuid" in g.value.dataHash && "uuid" in g.value.dataHash)
    ensures var g := Resolve(options, dataArg, errorArg);
      r.Ok? ==>
        && g.Ok?
        && r.value.id == g.value.dataHash["uuid"]
        && r.value.txId == g.value.dataHash["transaction_uuid"]
        && r.value.error == g.value.error
        && r.value.data.Keys == g.value.dataHash.Keys + DefaultKeys
        && (forall k :: k in g.value.dataHash ==> r.value.data[k] == g.value.dataHash[k])
    ensures r.Ok? ==> WellFormed(r.value)
    ensures var g := Resolve(options, dataArg, errorArg);
      r.Ok? ==>
        && ("status" !in g.value.dataHash ==> r.value.data["status"] == Str("new"))
        && ("attempts_count" !in g.value.dataHash ==> r.value.data["attempts_count"] == Int(1))
        && ("cache" !in g.value.dataHash ==> r.value.data["cache"] == Hash(map[]))
        && ("created_at" !in g.value.dataHash ==> r.value.data["created_at"] == Time(now))
        && ("transition" !in g.value.dataHash ==> r.value.data["transition"] == g.value.transition)
        && ("args" !in g.value.dataHash ==> r.value.data["args"] == g.value.args)
  {
    match Resolve(options, dataArg, errorArg)
    case Err(err) => Err(err)
    case Ok(inputs) =>
      var dh := inputs.dataHash;
      if "transaction_uuid" !in dh then Err(MissingKey("transaction_uuid"))
      else if "uuid" !in dh then Err(MissingKey("uuid"))
      else
        var txId := dh["transaction_uuid"];
        var id := dh["uuid"];
        Ok(Event(id, txId, Defaults(id, txId, inputs.transition, inputs.args, now) + dh, inputs.error))
  }

  /** The data hash `Event.create` passes to the constructor. */
  function CreationData(transition: Value, args: seq<Value>, txId: Value, freshId: string): map<string, Value> {
    map["uuid" := Str(freshId), "transaction_uuid" := txId, "transition" := transition, "args" := List(args)]
  }

  /** `Event.create(transition, *args, tx_id:)`: a fresh event with every default in place. */
  function Create(transition: Value, args: seq<Value>, txId: Value, freshId: string, now: int): (r: Event)
    ensures Construct(Hash(map[]), Hash(CreationData(transition, args, txId, freshId)), Nil, now) == Ok(r)
    ensures r.id == Str(freshId) && r.txId == txId
    ensures Lookup(r.data, "transition") == transition && Lookup(r.data, "args") == List(args)
    ensures IsNew(r) && AttemptsCount(r) == 1 && Lookup(r.data, "cache") == Hash(map[])
    ensures Lookup(r.data, "created_at") == Time(now)
    ensures r.error == Nil
    ensures "destination" !in r.data && "changes" !in r.data && "updated_at" !in r.data
    ensures r.data.Keys == DefaultKeys
    ensures WellFormed(r)
  {
    match Construct(Hash(map[]), Hash(CreationData(transition, args, txId, freshId)), Nil, now)
    case Ok(e) => e
    case Err(_) => assert false; Event(Nil, Nil, map[], Nil)
  }

  /** The data keys that have a generated reader: `args`, `transition`, `cache`, `destination`, `changes`. */
  datatype Field = Args | Transition | Cache | Destination | Changes {
    function Key(): string {
      match this
      case Args => "args"
      case Transition => "transition"
      case Cache => "cache"
      case Destination => "destination"
      case Changes => "changes"
    }
  }

  /** The generated field reader: the stored value, or nil when the key is missing. */
  function Read(e: Event, f: Field): (v: Value)
    ensures f.Key() in e.data ==> v == e.data[f.Key()]
    ensures f.Key() !in e.data ==> v == Nil
  {
    Lookup(e.data, f.Key())
  }

  /** The status token stored in the data hash equals `s`'s token. */
  predicate HasStatus(e: Event, s: Status) {
    Lookup(e.data, "status") == Str(s.Token())
  }

  /** Sets the stored status token to `s`'s token. */
  function WithStatus(e: Event, s: Status): (r: Event)
    ensures HasStatus(r, s)
    ensures r.id == e.id && r.txId == e.txId && r.error == e.error
    ensures AgreeExcept(e.data, r.data, {"status"})
    ensures WellFormed(e) ==> WellFormed(r)
  {
    e.(data := e.data["status" := Str(s.Token())])
  }

  // The four predicate/mutator pairs the Ruby class generates: `new?`/`new!`,
  // `start?`/`start!`, `retry?`/`retry!` and `failure?`/`failure!`.
  // There is no `success?` or `success!`.

  /** `new?` */
  predicate IsNew(e: Event)
    ensures IsNew(e) <==> "status" in e.data && e.data["status"] == Str("new")
  {
    HasStatus(e, New)
  }

  /** `start?` */
  predicate IsStarted(e: Event)
    ensures IsStarted(e) <==> "status" in e.data && e.data["status"] == Str("started")
  {
    HasStatus(e, Started)
  }

  /** `retry?` */
  predicate IsRetry(e: Event)
    ensures IsRetry(e) <==> "status" in e.data && e.data["status"] == Str("retry")
  {
    HasStatus(e, Retry)
  }

  /** `failure?` */
  predicate IsFailed(e: Event)
    ensures IsFailed(e) <==> "status" in e.data && e.data["status"] == Str("failed")
  {
    HasStatus(e, Failed)
  }

  /** `new!` */
  function MarkNew(e: Event): (r: Event)
    ensures Lookup(r.data, "status") == Str("new")
    ensures IsNew(r) && !IsStarted(r) && !IsRetry(r) && !IsFailed(r)
    ensures r.id == e.id && r.txId == e.txId && r.error == e.error
    ensures AgreeExcept(e.data, r.data, {"status"})
    ensures WellFormed(e) ==> WellFormed(r)
  {
    WithStatus(e, New)
  }

  /** `start!` */
  function MarkStarted(e: Event): (r: Event)
    ensures Lookup(r.data, "status") == Str("started")
    ensures !IsNew(r) && IsStarted(r) && !IsRetry(r) && !IsFailed(r)
    ensures r.id == e.id && r.txId == e.txId && r.error == e.error
    ensures AgreeExcept(e.data, r.data, {"status"})
    ensures WellFormed(e) ==> WellFormed(r)
  {
    WithStatus(e, Started)
  }

  /** `retry!` */
  function MarkRetry(e: Event): (r: Event)
    ensures Lookup(r.data, "status") == Str("retry")
    ensures !IsNew(r) && !IsStarted(r) && IsRetry(r) && !IsFailed(r)
    ensures r.id == e.id && r.txId == e.txId && r.error == e.error
    ensures AgreeExcept(e.data, r.data, {"status"})
    ensures WellFormed(e) ==> WellFormed(r)
  {
    WithStatus(e, Retry)
  }

  /** `failure!` */
  function MarkFailed(e: Event): (r: Event)
    ensures Lookup(r.data, "status") == Str("failed")
    ensures !IsNew(r) && !IsStarted(r) && !IsRetry(r) && IsFailed(r)
    ensures r.id == e.id && r.txId == e.txId && r.error == e.error
    ensures AgreeExcept(e.data, r.data, {"status"})
    ensures WellFormed(e) ==> WellFormed(r)
  {
    WithStatus(e, Failed)
  }

  /** The error record `link_exception` stores. */
  function ErrorRecord(exc: Exception, now: int): Value {
    Hash(map["exception" := Str(exc.kind), "exception_message" := Str(exc.message), "created_at" := Time(now)])
  }

  /** `link_exception(exception)`: replaces the error record, then `failure!`. */
  function LinkException(e: Event, exc: Exception, now: int): (r: Event)
    ensures r.error.Hash? && r.error.fields.Keys == {"exception", "exception_message", "created_at"}
    ensures r.error.fields["exception"] == Str(exc.kind)
    ensures r.error.fields["exception_message"] == Str(exc.message)
    ensures r.error.fields["created_at"] == Time(now)
    ensures IsFailed(r) && !IsNew(r) && !IsStarted(r) && !IsRetry(r)
    ensures r.id == e.id && r.txId == e.txId
    ensures AgreeExcept(e.data, r.data, {"status"})
    ensures WellFormed(e) ==> WellFormed(r)
  {
    MarkFailed(e.(error := ErrorRecord(exc, now)))
  }

  /**
   `attempts_count`: the stored counter through `to_i`. An integer reads as
   itself and `nil` (a missing key) as 0; other values are read as 0 too.
   */
  function AttemptsCount(e: Event): (n: int)
    ensures "attempts_count" !in e.data ==> n == 0
    ensures "attempts_count" in e.data && e.data["attempts_count"].Int? ==> n == e.data["attempts_count"].i
  {
    match Lookup(e.data, "attempts_count")
    case Int(i) => i
    case _ => 0
  }

  /** `attempt_retry`: stamps `updated_at` and raises the counter by one. */
  function AttemptRetry(e: Event, now: int): (r: Event)
    ensures AttemptsCount(r) == AttemptsCount(e) + 1
    ensures Lookup(r.data, "updated_at") == Time(now)
    ensures r.id == e.id && r.txId == e.txId && r.error == e.error
    ensures Lookup(r.data, "status") == Lookup(e.data, "status")
    ensures AgreeExcept(e.data, r.data, {"updated_at", "attempts_count"})
    ensures WellFormed(e) ==> WellFormed(r)
  {
    var d := e.data["updated_at" := Time(now)];
    e.(data := d["attempts_count" := Int(AttemptsCount(e) + 1)])
  }

  /** `complete(changes, destination)`: records the outcome and sets status `success`. */
  function Complete(e: Event, changes: Value, destination: Value, now: int): (r: Event)
    ensures Read(r, Destination) == destination && Read(r, Changes) == changes
    ensures Lookup(r.data, "updated_at") == Time(now)
    ensures HasStatus(r, Status.Success) && Lookup(r.data, "status") == Str("success")
    ensures !IsNew(r) && !IsStarted(r) && !IsRetry(r) && !IsFailed(r)
    ensures r.id == e.id && r.txId == e.txId && r.error == e.error
    ensures AttemptsCount(r) == AttemptsCount(e)
    ensures AgreeExcept(e.data, r.data, {"destination", "changes", "updated_at", "status"})
    ensures WellFormed(e) ==> WellFormed(r)
  {
    var written := map[
      "destination" := destination,
      "changes" := changes,
      "updated_at" := Time(now),
      "status" := Str(Status.Success.Token())
    ];
    assert written.Keys == {"destination", "changes", "updated_at", "status"};
    e.(data := e.data + written)
  }

  /**
   `dump`: the document `to_h` describes, `{"data" => data, "error" => error}`.
   The JSON codec is taken to be exact, so the document stands for its text.
   */
  function Dump(e: Event): (doc: Value)
    ensures doc.Hash? && doc.fields.Keys == {"data", "error"}
    ensures doc.fields["data"] == Hash(e.data) && doc.fields["error"] == e.error
  {
    Hash(map["data" := Hash(e.data), "error" := e.error])
  }

  /**
   `Event.load(json)`: `None` stands for a nil or false argument, which
   loads as nil; otherwise the parsed document is the constructor's options.
   */
  function Load(doc: Option<Value>, now: int): (r: Result<Option<Event>, ConstructError>)
    ensures doc.None? ==> r == Ok(None)
    ensures doc.Some? && r.Ok? ==> r.value.Some? && WellFormed(r.value.value)
    ensures doc.Some? && doc.value.Hash? && doc.value.fields != map[] && Lookup(doc.value.fields, "data") == Nil
      ==> r == Err(MissingKey("transaction_uuid"))
    ensures doc.Some? && doc.value.Hash? && "data" in doc.value.fields && doc.value.fields["data"].Hash? ==>
      var d := doc.value.fields["data"].fields;
      && ("transaction_uuid" !in d ==> r == Err(MissingKey("transaction_uuid")))
      && ("transaction_uuid" in d && "uuid" !in d ==> r == Err(MissingKey("uuid")))
      && ("transaction_uuid" in d && "uuid" in d ==> r.Ok? && r.value.Some?)
    ensures doc.Some? && doc.value.Hash? && "data" in doc.value.fields && doc.value.fields["data"].Hash? && r.Ok? ==>
      var fields := doc.value.fields;
      var d := fields["data"].fields;
      var e := r.value.value;
      && e.id == d["uuid"] && e.txId == d["transaction_uuid"]
      && e.error == Lookup(fields, "error")
      && e.data.Keys == d.Keys + DefaultKeys
      && (forall k :: k in d ==> e.data[k] == d[k])
      && ("status" !in d ==> e.data["status"] == Str("new"))
      && ("attempts_count" !in d ==> e.data["attempts_count"] == Int(1))
      && ("cache" !in d ==> e.data["cache"] == Hash(map[]))
      && ("created_at" !in d ==> e.data["created_at"] == Time(now))
      && ("transition" !in d ==> e.data["transition"] == Lookup(fields, "transition"))
      && ("args" !in d ==> e.data["args"] == Lookup(fields, "args"))
  {
    match doc
    case None => Ok(None)
    case Some(options) =>
      match Construct(options, Nil, Nil, now)
      case Ok(e) => Ok(Some(e))
      case Err(err) => Err(err)
  }
}

=== FILE: event_properties.dfy ===
/**
 Properties relating several event operations: the dump/load round trip,
 idempotence and exclusivity of the status pairs, wholesale replacement of
 the error record, and what any sequence of mutators keeps or changes.
 */
module EventProperties {
  import opened Wrappers
  import opened Values
  import opened PipelineEvent

  /** Every status token names its own status and no other. */
  lemma StatusTokenRoundTrip(s: Status)
    ensures ParseStatus(s.Token()) == Some(s)
  {
  }

  /** The four predicates are mutually exclusive: a status string names one status. */
  lemma StatusPredicatesExclusive(e: Event, s: Status, t: Status)
    requires HasStatus(e, s) && HasStatus(e, t)
    ensures s == t
  {
    StatusTokenRoundTrip(s);
    StatusTokenRoundTrip(t);
  }

  /** Each status mutator is idempotent. */
  lemma StatusMutatorsIdempotent(e: Event)
    ensures MarkNew(MarkNew(e)) == MarkNew(e)
    ensures MarkStarted(MarkStarted(e)) == MarkStarted(e)
    ensures MarkRetry(MarkRetry(e)) == MarkRetry(e)
    ensures MarkFailed(MarkFailed(e)) == MarkFailed(e)
  {
  }

  /** Merging defaults under a hash that already holds every default key changes nothing. */
  lemma MergeOverCompleteIsIdentity(defaults: map<string, Value>, d: map<string, Value>)
    requires defaults.Keys <= d.Keys
    ensures defaults + d == d
  {
    assert (defaults + d).Keys == d.Keys;
  }

  /** With an exact codec, loading a dumped well-formed event gives the event back. */
  lemma LoadDumpRoundTrip(e: Event, now: int)
    requires WellFormed(e)
    ensures Load(Some(Dump(e)), now) == Ok(Some(e))
  {
    var doc := Dump(e);
    var g := Resolve(doc, Nil, Nil);
    assert g == Ok(Inputs(e.data, e.error, Nil, Nil));
    MergeOverCompleteIsIdentity(Defaults(e.id, e.txId, Nil, Nil, now), e.data);
  }

  /**
   Documents that are `empty?` leave `data` nil, which reads as an empty hash,
   so loading them fails on `transaction_uuid`; a `null` document has no
   `empty?` and is rejected as malformed.
   */
  lemma LoadEmptyDocuments(now: int)
    ensures Load(Some(Hash(map[])), now) == Err(MissingKey("transaction_uuid"))
    ensures Load(Some(List([])), now) == Err(MissingKey("transaction_uuid"))
    ensures Load(Some(Str("")), now) == Err(MissingKey("transaction_uuid"))
    ensures Load(Some(Nil), now) == Err(NotAHash)
  {
  }

  /** A dump whose data lost an identity key cannot be loaded: the transaction id is fetched first. */
  lemma LoadDumpNeedsIdentity(e: Event, now: int)
    ensures "transaction_uuid" !in e.data ==> Load(Some(Dump(e)), now) == Err(MissingKey("transaction_uuid"))
    ensures "transaction_uuid" in e.data && "uuid" !in e.data ==> Load(Some(Dump(e)), now) == Err(MissingKey("uuid"))
  {
    assert Resolve(Dump(e), Nil, Nil) == Ok(Inputs(e.data, e.error, Nil, Nil));
  }

  /** `link_exception` overwrites the error record: only the latest exception is kept. */
  lemma LinkExceptionReplaces(e: Event, first: Exception, t1: int, second: Exception, t2: int)
    ensures LinkException(LinkException(e, first, t1), second, t2) == LinkException(e, second, t2)
  {
  }

  /** Completing twice with the same outcome at the same time is the same as completing once. */
  lemma CompleteIdempotent(e: Event, changes: Value, destination: Value, now: int)
    ensures Complete(Complete(e, changes, destination, now), changes, destination, now)
         == Complete(e, changes, destination, now)
  {
  }

  /** One call of an event mutator, with the arguments and clock reading it is given. */
  datatype Op =
    | OpMarkNew
    | OpMarkStarted
    | OpMarkRetry
    | OpMarkFailed
    | OpLinkException(exc: Exception, at: int)
    | OpAttemptRetry(at: int)
    | OpComplete(changes: Value, destination: Value, at: int)

  /** The data keys some mutator writes; every other key is never touched. */
  const MutableKeys: set<string> := {"status", "updated_at", "attempts_count", "destination", "changes"}

  /** One mutator call, dispatched on `op`. */
  function Apply(e: Event, op: Op): (r: Event)
    ensures r.id == e.id && r.txId == e.txId
    ensures AgreeExcept(e.data, r.data, MutableKeys)
    ensures AttemptsCount(r) == AttemptsCount(e) + (if op.OpAttemptRetry? then 1 else 0)
    ensures WellFormed(e) ==> WellFormed(r)
  {
    match op
    case OpMarkNew => MarkNew(e)
    case OpMarkStarted => MarkStarted(e)
    case OpMarkRetry => MarkRetry(e)
    case OpMarkFailed => MarkFailed(e)
    case OpLinkException(exc, at) => LinkException(e, exc, at)
    case OpAttemptRetry(at) => AttemptRetry(e, at)
    case OpComplete(changes, destination, at) => Complete(e, changes, destination, at)
  }

  /** The event after applying `ops` in order. */
  function Run(e: Event, ops: seq<Op>): Event
    decreases |ops|
  {
    if |ops| == 0 then e else Run(Apply(e, ops[0]), ops[1..])
  }

  /** How many `attempt_retry` calls `ops` contains. */
  function Retries(ops: seq<Op>): nat
    decreases |ops|
  {
    if |ops| == 0 then 0 else (if ops[0].OpAttemptRetry? then 1 else 0) + Retries(ops[1..])
  }

  /** Identity and every key no mutator writes survive any sequence of mutators; so does well-formedness. */
  lemma {:induction false} RunPreservesIdentity(e: Event, ops: seq<Op>)
    ensures Run(e, ops).id == e.id && Run(e, ops).txId == e.txId
    ensures AgreeExcept(e.data, Run(e, ops).data, MutableKeys)
    ensures WellFormed(e) ==> WellFormed(Run(e, ops))
    decreases |ops|
  {
    if |ops| > 0 {
      RunPreservesIdentity(Apply(e, ops[0]), ops[1..]);
    }
  }

  /** The counter rises by exactly one per `attempt_retry` and is otherwise untouched, so it never decreases. */
  lemma {:induction false} RunCountsAttempts(e: Event, ops: seq<Op>)
    ensures AttemptsCount(Run(e, ops)) == AttemptsCount(e) + Retries(ops)
    ensures AttemptsCount(Run(e, ops)) >= AttemptsCount(e)
    decreases |ops|
  {
    if |ops| > 0 {
      RunCountsAttempts(Apply(e, ops[0]), ops[1..]);
    }
  }

  /**
   The error after a sequence of mutators is the record of the last
   `link_exception` in it, or the original error when there is none;
   `complete` and the status mutators never clear it.
   */
  lemma {:induction false} RunKeepsLastError(e: Event, ops: seq<Op>)
    ensures (forall i :: 0 <= i < |ops| ==> !ops[i].OpLinkException?) ==> Run(e, ops).error == e.error
    ensures forall i ::
      0 <= i < |ops| && ops[i].OpLinkException? && (forall j :: i < j < |ops| ==> !ops[j].OpLinkException?)
      ==> Run(e, ops).error == ErrorRecord(ops[i].exc, ops[i].at)
    decreases |ops|
  {
    if |ops| > 0 {
      var e1 := Apply(e, ops[0]);
      var rest := ops[1..];
      RunKeepsLastError(e1, rest);
      forall i | 0 <= i < |ops| && ops[i].OpLinkException? && (forall j :: i < j < |ops| ==> !ops[j].OpLinkException?)
        ensures Run(e, ops).error == ErrorRecord(ops[i].exc, ops[i].at)
      {
        if i > 0 {
          assert rest[i - 1] == ops[i];
          assert forall j :: i - 1 < j < |rest| ==> rest[j] == ops[j + 1];
        } else {
          assert forall j :: 0 <= j < |rest| ==> rest[j] == ops[j + 1];
        }
      }
    }
  }

  /** A transition attempt that succeeds: create, start, complete, then dump and load. */
  lemma CompletionScenario(tx: Value, freshId: string, t0: int, t1: int, t2: int)
    ensures var e := Create(Str("activate"), [Str("user:42")], tx, freshId, t0);
      IsNew(e) && AttemptsCount(e) == 1 && Read(e, Args) == List([Str("user:42")])
    ensures var done := Complete(MarkStarted(Create(Str("activate"), [Str("user:42")], tx, freshId, t0)),
                                 Hash(map["active" := Bool(true)]), Str("active"), t1);
      && Lookup(done.data, "status") == Str("success")
      && Read(done, Destination) == Str("active")
      && Read(done, Changes) == Hash(map["active" := Bool(true)])
      && Load(Some(Dump(done)), t2) == Ok(Some(done))
  {
    var e := Create(Str("activate"), [Str("user:42")], tx, freshId, t0);
    LoadDumpRoundTrip(Complete(MarkStarted(e), Hash(map["active" := Bool(true)]), Str("active"), t1), t2);
  }

  /** A transition attempt that fails and is marked for retry: the status stays `failed`. */
  lemma FailureScenario(tx: Value, freshId: string, t0: int, t1: int, t2: int)
    ensures var failed := LinkException(MarkStarted(Create(Str("activate"), [Str("user:42")], tx, freshId, t0)),
                                        Exception("TimeoutError", "slow"), t1);
      && IsFailed(failed)
      && failed.error.fields["exception"] == Str("TimeoutError")
      && failed.error.fields["exception_message"] == Str("slow")
      && AttemptsCount(AttemptRetry(failed, t2)) == 2
      && Lookup(AttemptRetry(failed, t2).data, "updated_at") == Time(t2)
      && IsFailed(AttemptRetry(failed, t2))
  {
  }
}

=== FILE: values.dfy ===
/**
 Dynamic values as they appear inside an event's data hash: the shapes a JSON
 document can hold, plus a clock reading standing for a Ruby `Time`.
 */
module Values {
  import opened Wrappers

  datatype Value =
    | Nil
    | Bool(b: bool)
    | Int(i: int)
    | Str(s: string)
    | Time(t: int)
    | List(items: seq<Value>)
    | Hash(fields: map<string, Value>)

  /** Ruby truthiness: everything except `nil` and `false`. */
  predicate Truthy(v: Value) {
    v != Nil && v != Bool(false)
  }

  /** `a || b` on Ruby values, the meaning of `a ||= b`. */
  function Or(a: Value, b: Value): (r: Value)
    ensures Truthy(a) ==> r == a
    ensures !Truthy(a) ==> r == b
  {
    if Truthy(a) then a else b
  }

  /** `hash[key]`: the stored value, or `nil` when the key is missing. */
  function Lookup(m: map<string, Value>, key: string): (r: Value)
    ensures key in m ==> r == m[key]
    ensures key !in m ==> r == Nil
  {
    if key in m then m[key] else Nil
  }

  /** A two-element list whose first element is a string: one entry `Array#to_h` accepts. */
  predicate IsStringPair(v: Value) {
    v.List? && |v.items| == 2 && v.items[0].Str?
  }

  /**
   `Array#to_h` on a list of string-keyed pairs: the pairs' keys, each bound
   to the value of its LAST pair. None when some element is not such a pair.
   */
  function PairsToHash(xs: seq<Value>): (r: Option<map<string, Value>>)
    ensures r.Some? <==> forall i :: 0 <= i < |xs| ==> IsStringPair(xs[i])
    ensures r.Some? ==> |r.value| <= |xs|
    decreases |xs|
  {
    if |xs| == 0 then Some(map[])
    else
      var last := xs[|xs| - 1];
      match PairsToHash(xs[..|xs| - 1])
      case None => None
      case Some(m) => if IsStringPair(last) then Some(m[last.items[0].s := last.items[1]]) else None
  }

  /** `value.to_h` for the values that answer it; None where Ruby raises. */
  function ToHash(v: Value): (r: Option<map<string, Value>>)
    ensures v.Hash? ==> r == Some(v.fields)
    ensures v == Nil ==> r == Some(map[])
    ensures v.List? ==> r == PairsToHash(v.items)
    ensures !v.Hash? && v != Nil && !v.List? ==> r == None
  {
    match v
    case Hash(m) => Some(m)
    case Nil => Some(map[])
    case List(xs) => PairsToHash(xs)
    case _ => None
  }

  /** The two maps hold the same keys with the same values outside `keys`. */
  ghost predicate AgreeExcept(m1: map<string, Value>, m2: map<string, Value>, keys: set<string>) {
    forall k :: k !in keys ==> (k in m1 <==> k in m2) && (k in m1 ==> m1[k] == m2[k])
  }

  /** The hash `Array#to_h` builds holds exactly the pairs' keys. */
  lemma {:induction false} PairsToHashKeys(xs: seq<Value>)
    requires PairsToHash(xs).Some?
    ensures forall i :: 0 <= i < |xs| ==> xs[i].items[0].s in PairsToHash(xs).value
    ensures forall k :: k in PairsToHash(xs).value ==> exists i :: 0 <= i < |xs| && xs[i].items[0] == Str(k)
    decreases |xs|
  {
    if |xs| > 0 {
      var init := xs[..|xs| - 1];
      PairsToHashKeys(init);
      assert forall i :: 0 <= i < |init| ==> init[i] == xs[i];
    }
  }

  /** A later pair overwrites an earlier one: each key is bound to the value of its last pair. */
  lemma {:induction false} PairsToHashLastWins(xs: seq<Value>, i: int)
    requires PairsToHash(xs).Some?
    requires 0 <= i < |xs|
    requires forall j :: i < j < |xs| ==> xs[j].items[0] != xs[i].items[0]
    ensures xs[i].items[0].s in PairsToHash(xs).value
    ensures PairsToHash(xs).value[xs[i].items[0].s] == xs[i].items[1]
    decreases |xs|
  {
    if i < |xs| - 1 {
      var init := xs[..|xs| - 1];
      assert init[i] == xs[i];
      PairsToHashLastWins(init, i);
    }
  }
}

=== FILE: wrappers.dfy ===
/** Failure-carrying wrappers used by the event model. */
module Wrappers {

  /** A value that may be absent (Ruby's `nil` at an API boundary). */
  datatype Option<+T> = None | Some(value: T)

  /** The outcome of an operation that can raise. */
  datatype Result<+R, +E> = Ok(value: R) | Err(error: E)
}
